=== FILE: README.md ===
# VEX project scaffolding and driver-control model

A Dafny model of the two pieces of decision logic in a VEX robotics starter repository.

1. **The VS Code extension's project scaffolding** (`extension/src/extension.ts`):
   - the project-name validator and the trim of the accepted name;
   - the target-path join and `ensureEmptyDirectory`;
   - the recursive `copyDirectory`, which skips `.git`, `.vsix`, `node_modules`, `out` and `build`;
   - `stampProjectMetadata`, which rewrites the settings file `.vscode/vex_project_settings.json`;
   - the projects panel (`getChildren` / `isVexProject`).
2. **The robot's joystick-to-motor mapping** (`include/DriverControl.h`):
   - deadzone, axis selection, clamping;
   - the per-mode power computation of `calculate`;
   - the setters and getters.

The file system is an immutable tree, `FileTree.Node = Dir(map) | File(bytes) | Other`. `Other` stands for any entry that is neither a directory nor a regular file. Paths are sequences of entry names. Every operation is a pure function from one tree to the next. An exception becomes a `Failure` value. A step that fails changes nothing, but `Scaffold.CreateProject` does not roll back: when the copy fails, the target folder that `ensureEmptyDirectory` prepared stays in place. `stampProjectMetadata` swallows its own failures, and the tree is then unchanged.

JSON text is abstracted by a `Settings.JsonCodec`, a pair of functions: `parse` (returns `None` for malformed text) and `render`. The document itself is a JSON value with JavaScript truthiness:
- a `null` document makes `data.project` throw, so nothing is written;
- a truthy primitive `project` makes the field assignments throw (the compiled module runs in strict mode), so nothing is written;
- an array `project` receives the fields, but `JSON.stringify` drops them, so the document is written back unchanged;
- a missing or falsy `project` means the document is written back as parsed.

`new Date().toLocaleString()` is the parameter `now`. `applyCurve` is the function parameter `curve(input, exponent)`. `Drive.Default` holds the constructor's default arguments.

In these places the model follows what the code does:
- The projects panel checks each workspace folder against every item listed so far. That includes earlier workspace folders, not only the remembered paths. Remembered paths are never deduplicated among themselves.
- A path counts as a project when entries named `makefile` and `vex` both exist under it, of any kind. The code does not check that `vex` is a directory.
- The default description replaces any falsy value: absent, `""`, `null`, `false` or `0`.
- A document without `project` is still re-serialised and written back.

The validator accepts the names `.` and `..`. `path.join` then resolves the target to the chosen folder itself or to its parent (`ProjectName.DotNamesAccepted`, `Scaffold.DotDotTargetIsNotEmpty`). A parent always holds the chosen folder, so `..` always ends in "Destination folder is not empty.".

## Model

| member | source | states |
|---|---|---|
| ProjectName.TrimStart | extension/src/extension.ts:231 | the result is a suffix of the input, everything removed is whitespace, and the result does not start with whitespace |
| ProjectName.TrimEnd | extension/src/extension.ts:241 | the result is a prefix of the input, everything removed is whitespace, and the result does not end with whitespace |
| ProjectName.Trim | extension/src/extension.ts:231 | the result is an infix of the input with only whitespace around it, and it neither starts nor ends with whitespace |
| ProjectName.TrimEmptyIffAllWhitespace | extension/src/extension.ts:231-233 | the trim is empty exactly when every character is whitespace |
| ProjectName.TrimIdentity | extension/src/extension.ts:241 | a string with no whitespace is its own trim |
| ProjectName.HasDisallowedChar | extension/src/extension.ts:234 | the pattern matches exactly when some character lies outside `[A-Za-z0-9._-]` |
| ProjectName.ValidateInput | extension/src/extension.ts:230-238 | "Please enter a project name." exactly for all-whitespace input; the charset message exactly for input with a non-whitespace character and a character outside the allow-list; acceptance exactly for a non-empty string of allowed characters |
| ProjectName.AcceptName | extension/src/extension.ts:226-242 | a name is returned exactly when the submitted text passes the validator; it is then the submitted text itself (the trim is the identity), non-empty, and made of allowed characters |
| ProjectName.DotNamesAccepted | extension/src/extension.ts:230-241 | `.` and `..` are accepted unchanged |
| FileTree.StatAt | extension/src/extension.ts:257 | `stat` of the empty path is the node itself; one step into a directory finds the named entry, or ENOENT when the directory has no such entry; a step out of a non-directory is ENOTDIR; ENOENT arises only inside a directory; a found path's first entry belongs to a directory |
| FileTree.SetAt | extension/src/extension.ts:307 | after a write, the path holds the written node |
| FileTree.MakeDirs | extension/src/extension.ts:268 | recursive mkdir leaves a directory at the path; a missing path becomes an empty directory; an existing directory is left untouched |
| FileTree.MakeDirsFrame | extension/src/extension.ts:268 | recursive mkdir changes no path except the ancestors of its target |
| FileTree.MakeDirsAncestors | extension/src/extension.ts:268 | after recursive mkdir, every ancestor of the target is a directory |
| Scaffold.Message | extension/src/extension.ts:259-264 | the not-a-folder and not-empty messages are each shown exactly for their own error |
| Scaffold.Join | extension/src/extension.ts:30 | an ordinary name descends one level; `.` stays in the chosen folder; `..` goes to its parent |
| Scaffold.EnsureEmptyDirectory | extension/src/extension.ts:255-273 | "Destination exists and is not a folder." exactly when the target is a non-directory; "Destination folder is not empty." exactly when it is a directory with entries; ENOTDIR exactly when a non-directory lies on the way; success exactly when the target is missing or an empty folder, and afterwards it is an empty folder; an empty folder is left unchanged |
| Scaffold.EnsureEmptyFrame | extension/src/extension.ts:266-268 | preparing the target changes nothing outside the target and its ancestors |
| Scaffold.DotDotTargetIsNotEmpty | extension/src/extension.ts:30-40 | the name `..` makes an existing chosen folder's parent the target, and preparing it fails with "Destination folder is not empty." |
| Scaffold.CopyNode | extension/src/extension.ts:275-293 | the copy of a directory is a directory whose entries are exactly the source's unskipped directories and regular files, and it holds no other kind of entry; a file is copied verbatim |
| Scaffold.CopiedAt | extension/src/extension.ts:275-293 | the copy holds a node at a path exactly when the source holds a directory or regular file there and no component of the path is skipped; that node is the copy of the source's node |
| Scaffold.CopySkipsEverywhere | extension/src/extension.ts:279-282 | no path present in the copy has a skipped name at any depth, so nothing beneath a skipped directory is copied |
| Scaffold.CopyPreservesFiles | extension/src/extension.ts:284-291 | a file with given bytes is in the copy exactly when the source has the same bytes at the same path and no component of that path is skipped |
| Scaffold.CopyDropsSpecialEntries | extension/src/extension.ts:287-291 | entries that are neither directories nor regular files never appear in the copy |
| Scaffold.CopyExampleTemplate | extension/src/extension.ts:279-291 | a template with `src/main.c`, `.git/config` and `build/out.bin` copies to `src/main.c` alone |
| Scaffold.CopyDirectory | extension/src/extension.ts:275-293 | succeeds exactly when the source is a directory; ENOENT for a missing source and ENOTDIR otherwise; on success the destination holds the copy of the source tree, and no path disjoint from the destination changes |
| Scaffold.CopyLeavesTemplate | extension/src/extension.ts:275-293 | copying does not modify the template tree |
| Scaffold.CreateProject | extension/src/extension.ts:30-44 | a failed precondition returns the tree unchanged with that error; the project is created exactly when the target was missing or empty and the template is a directory; a failed copy leaves the prepared empty target in place; after success the target is a directory |
| Scaffold.CreateProjectFrame | extension/src/extension.ts:39-43 | creating a project changes no path outside the target and its ancestors |
| Scaffold.CreateProjectCopiesTemplate | extension/src/extension.ts:40-42 | after success, every regular file under the target other than the settings file matches, bytes included, a template file at the same path with no skipped component, and every such template file is there |
| Scaffold.CreateProjectStampsSettings | extension/src/extension.ts:41-42 | after success, if the codec gives back the one document written, the new project's settings read as the template's settings stamped with the name and time |
| Scaffold.ScaffoldExample | extension/src/extension.ts:40-42 | scaffolding the example template into a new folder succeeds and the target holds exactly `src/main.c` |
| Settings.SettingsPath | extension/src/extension.ts:296 | the settings file lies two levels below the target |
| Settings.Truthy | extension/src/extension.ts:301-303 | a JSON value is falsy exactly when it is `null`, `false`, `0` or the empty string |
| Settings.ReadSettings | extension/src/extension.ts:298-299 | a regular settings file reads as the parse of its bytes, and nothing is read unless the settings path holds a regular file; when a document is read, its target and `.vscode` folder are directories |
| Settings.StampProject | extension/src/extension.ts:302-304 | `name` becomes the project name and `creationDate` the time; `description` keeps a truthy value and otherwise becomes "VEX Competition Project"; every other field is unchanged and no other field is added |
| Settings.StampDocument | extension/src/extension.ts:299-305 | nothing is written exactly for a `null` document or a truthy primitive `project`; an object `project` is stamped and the other top-level fields are unchanged; in every other case the document is written back as it was parsed |
| Settings.StampDocumentIdempotent | extension/src/extension.ts:301-305 | stamping a stamped document again with the same name and time changes nothing |
| Settings.StampExample | extension/src/extension.ts:301-305 | `{"project":{"name":"old"}}` stamped as `demo` gets name `demo`, the default description and the given time |
| Settings.StampProjectMetadata | extension/src/extension.ts:295-311 | a missing, non-file or unparsable settings file leaves the tree unchanged, and so does a throwing document; otherwise the file holds the rendered stamped document |
| Settings.StampFrame | extension/src/extension.ts:296-307 | the stamper changes no path disjoint from the settings file |
| Settings.StampPreservesOtherFiles | extension/src/extension.ts:307 | the stamper changes no regular file other than the settings file |
| Settings.StampReadBack | extension/src/extension.ts:298-307 | if the codec gives back the one document written, reading the settings after stamping yields the stamped document, or the original one when the stamper gave up |
| Settings.StampIdempotent | extension/src/extension.ts:295-311 | if the codec gives back the one document written, stamping twice with the same name and time equals stamping once |
| ProjectList.IsVexProject | extension/src/extension.ts:154-168 | a path qualifies exactly when it is a directory holding entries named `makefile` and `vex`, of any kind |
| ProjectList.GetChildren | extension/src/extension.ts:119-152 | the loops compute the reference list: nothing for a child element; otherwise the remembered projects, then the unlisted workspace folders; the placeholder alone when that list is empty |
| ProjectList.RememberedItems | extension/src/extension.ts:128-133 | the first loop lists at most one item per remembered path; every item is a qualifying project labelled with the base name of its path, never the placeholder |
| ProjectList.RememberedItemsAppend | extension/src/extension.ts:128-133 | filtering the remembered paths distributes over concatenation, so stored order is kept |
| ProjectList.RememberedItemsMembers | extension/src/extension.ts:128-133 | a remembered path is listed exactly when it qualifies; every item is a non-placeholder labelled with its base name |
| ProjectList.AddFolders | extension/src/extension.ts:136-145 | the second loop keeps the items already listed as a prefix and adds at most one item per workspace folder |
| ProjectList.AddFoldersAppend | extension/src/extension.ts:136-145 | workspace folders are added in their own order: adding two runs of folders is adding the first run, then the second |
| ProjectList.AddFoldersShape | extension/src/extension.ts:136-145 | the remembered items stay a prefix; each added item is a qualifying workspace folder, carries the folder's name, and has a path not listed before it |
| ProjectList.AddFoldersComplete | extension/src/extension.ts:136-145 | every qualifying workspace folder's path ends up listed |
| ProjectList.AddFoldersSound | extension/src/extension.ts:136-145 | a listed path was listed before or is a qualifying workspace folder's path |
| ProjectList.ProjectChildren | extension/src/extension.ts:119-152 | the list is empty exactly for a child element; the only item whose context value is `placeholder` is the placeholder shown alone |
| ProjectList.ListedIffQualifying | extension/src/extension.ts:128-145 | a path is listed exactly when `makefile` and `vex` exist under it and it is remembered or open |
| ProjectList.NoPlaceholderCollected | extension/src/extension.ts:128-145 | neither loop produces a placeholder item |
| ProjectList.ProjectChildrenMembers | extension/src/extension.ts:147-151 | the placeholder alone is shown exactly when no remembered or open path qualifies; otherwise no item is a placeholder and the listed paths are exactly the qualifying remembered or open ones |
| ProjectList.ListExample | extension/src/extension.ts:128-151 | remembered `[A, B]` and open `[B, C]`, with only A and C qualifying, list A then C |
| Drive.ApplyDeadzone | include/DriverControl.h:33-36 | the result is 0 or the input; the input is kept exactly when its magnitude reaches the deadzone or it is 0; the magnitude never grows |
| Drive.DeadzoneIdempotent | include/DriverControl.h:33-36 | applying the deadzone twice is applying it once |
| Drive.DeadzoneOdd | include/DriverControl.h:33-36 | the deadzone is symmetric under negation |
| Drive.ReadAxis | include/DriverControl.h:39-54 | ids 1..4 select that entry of the axis array; any other id reads 0 |
| Drive.UnknownAxisReadsZero | include/DriverControl.h:51-52 | a drive axis set to an id outside 1..4 gives zero drive power |
| Drive.Clamp | include/DriverControl.h:67-70 | the result lies in [-100, 100], equals the input inside that range, and is the nearer bound outside it |
| Drive.ClampMonotoneIdempotent | include/DriverControl.h:67-70 | clamping keeps order, is idempotent and commutes with negation |
| Drive.TruncDiv | include/DriverControl.h:130 | C++ integer division: the quotient is truncated toward zero, with the remainder bounds that implies |
| Drive.TruncDivOdd | include/DriverControl.h:130 | truncating division commutes with negation |
| Drive.ScaledTurnOdd | include/DriverControl.h:130 | the scaled turn is symmetric under negating the turn power |
| Drive.TruncReal | include/DriverControl.h:118-119 | the `(int)` conversion truncates toward zero |
| Drive.ActiveTurnSensitivity | include/DriverControl.h:129 | the slow-turn sensitivity while slow turn is held, the normal one otherwise |
| Drive.ScaledTurn | include/DriverControl.h:130 | the magnitude is the magnitude of turn power times sensitivity, divided by 100 and truncated; the sign is that of the product |
| Drive.CurvatureTurn | include/DriverControl.h:113-121 | unchanged when the drive magnitude is at most 5; for drive magnitude up to 200, never larger in magnitude and never of the opposite sign |
| Drive.CurvatureBound | include/DriverControl.h:118-119 | scaling by a factor in [0, 1] and truncating neither grows the magnitude nor flips the sign |
| Drive.CurvatureTurnOdd | include/DriverControl.h:113-121 | the curvature turn is symmetric in the turn direction |
| Drive.Powers | include/DriverControl.h:92-127 | the drive power is the filtered drive axis in every mode; the turn power is the filtered turn axis, scaled by the curvature factor in curvature mode only |
| Drive.Calculate | include/DriverControl.h:86-137 | in every mode but tank both outputs lie in [-100, 100] for any curve, and they are the clamped sum and difference of the curved drive and scaled turn; tank mode sends each side's filtered axis through the curve without clamping |
| Drive.TankIgnoresTurnSettings | include/DriverControl.h:99-106 | in tank mode the outputs depend only on the left and right axis readings, the deadzone and the exponent |
| Drive.ArcadeModesAgree | include/DriverControl.h:94-126 | arcade, split arcade and single stick compute identical outputs |
| Drive.MirrorTurn | include/DriverControl.h:129-136 | with an odd curve, turning the other way swaps the left and right outputs in every mode but tank |
| Drive.PowersMirror | include/DriverControl.h:108-126 | negating the turn axis keeps the drive power and negates the turn power in every non-tank mode |
| Drive.DefaultRestsInDeadzone | include/DriverControl.h:74-81 | with the constructor defaults and a curve with no output at rest, sticks within the 10% deadzone drive neither side |
| Drive.SetControlType | include/DriverControl.h:140-143 | the getter returns the new control type and no other field changes |
| Drive.SetDeadzone | include/DriverControl.h:144-147 | the getter returns the new deadzone and no other field changes |
| Drive.SetExponent | include/DriverControl.h:148-151 | the getter returns the new exponent and no other field changes |
| Drive.SetTurnSensitivity | include/DriverControl.h:152-155 | the getter returns the new turn sensitivity and no other field changes |
| Drive.SetSlowTurnSensitivity | include/DriverControl.h:156-159 | the getter returns the new slow-turn sensitivity and no other field changes |
| Drive.SetAxisDrive | include/DriverControl.h:162-165 | the drive axis becomes the new id and no other field changes |
| Drive.SetAxisTurn | include/DriverControl.h:166-169 | the turn axis becomes the new id and no other field changes |
| Drive.SetAxisLeft | include/DriverControl.h:170-173 | the left axis becomes the new id and no other field changes |
| Drive.SetAxisRight | include/DriverControl.h:174-177 | the right axis becomes the new id and no other field changes |

## Left out

- VS Code host plumbing is not modelled because it is UI and foreign API. This covers `activate`, command registration, tree-item rendering and icons, `refresh`, the devices panel and its static placeholder, the input box and folder dialog, progress and notifications, opening a folder, and the terminal `make` of the build command. The input box appears only as the text the operator confirms, and the folder dialog only as the `destination` path.
- Real file-system I/O is replaced by the tree. Permissions, full disks and other I/O failures are not modelled, so no copy or write fails part-way in the model. Node's error messages for ENOENT and ENOTDIR are reduced to their code.
- `Promise.all` in `isVexProject` runs two independent, side-effect-free existence checks, modelled as a conjunction.
- JSON text parsing, pretty-printing with two-space indentation and UTF-8 decoding sit behind the codec parameter. The key order of re-serialised objects is not modelled because objects are maps.
- The locale-dependent timestamp is the parameter `now`.
- Symbolic links: `stat`, `access` and `readFile` follow them, but the model treats an `Other` entry as an existing non-directory that cannot be read. `readdir` with file types reports a link as a link, so the copy's skipping of links is faithful.
- Scaffold.CopyDirectory: modelled only for an empty destination directory that neither contains nor lies inside the template. Its only caller establishes emptiness through `ensureEmptyDirectory`; the disjointness is an assumption of the model. Merging into a populated destination, and copying between nested folders, are not modelled.
- Scaffold.CreateProject: requires the target to be disjoint from the template, which excludes three cases the code handles. A target inside the template makes the copy descend into the new folder. A target that contains an existing template, or equals a non-empty one, fails in the code with "Destination folder is not empty.". An empty template chosen as the target itself yields an empty project.
- Drive.Calculate: `applyCurve` (`std::pow` on doubles) is the uninterpreted parameter `curve`. The tank-mode outputs are therefore bounded only by whatever the curve returns.
- Drive.CurvatureTurn: the curvature factor is computed over exact reals rather than IEEE doubles, so some results differ by one from the code's. For example, turn -100 at drive 68 gives -66 here, where the doubles give -65. The stated bounds hold for both.
- ProjectList.AddFolders: paths are sequences of entry names, so the duplicate check compares them as such. The code compares the path strings, so a remembered `/w/p/` and an open folder `/w/p` are listed twice by the code and once here.
- Drive.Clamp: is modelled over reals, so NaN inputs (for which `fmin`/`fmax` return the other operand) are not modelled.
- Drive.ScaledTurn: C++ `int` is 32-bit and signed overflow is undefined behaviour. Integers here are unbounded. With axis positions in [-100, 100], overflow needs a sensitivity beyond about 21 million.
- `src/main.cpp` is not modelled because it is hardware and timing glue. This covers the device declarations, the competition callbacks and the endless control loops.

=== FILE: drive.dfy ===
/**
 The driver-control mapping of the robot: four controller axes (percent) become a left and a
 right motor power. The exponential input curve is a parameter `curve(input, exponent)`,
 standing for `applyCurve`, about which nothing is assumed unless a lemma says so.
 */
module Drive {

  datatype ControlType = Arcade | Tank | SplitArcade | Curvature | SingleStick

  datatype DriverControl = DriverControl(
    controlType: ControlType,
    deadzone: int,
    exponent: real,
    turnSensitivity: int,
    slowTurnSensitivity: int,
    axisDrive: int,
    axisTurn: int,
    axisLeft: int,
    axisRight: int)

  /** The constructor's default arguments. */
  const Default: DriverControl := DriverControl(Arcade, 10, 2.0, 60, 50, 3, 1, 3, 2)

  /** The controller's analogue sticks, each position in percent. */
  datatype Controller = Controller(axis1: int, axis2: int, axis3: int, axis4: int)

  datatype Outputs = Outputs(left: real, right: real)

  function Abs(x: int): int {
    if x < 0 then -x else x
  }

  /** `applyDeadzone`: small stick deflections read as zero. */
  function ApplyDeadzone(dc: DriverControl, value: int): (r: int)
    ensures r == 0 || r == value
    ensures r == value <==> Abs(value) >= dc.deadzone || value == 0
    ensures Abs(r) <= Abs(value)
  {
    if Abs(value) < dc.deadzone then 0 else value
  }

  /** Filtering an already filtered value changes nothing. */
  lemma DeadzoneIdempotent(dc: DriverControl, value: int)
    ensures ApplyDeadzone(dc, ApplyDeadzone(dc, value)) == ApplyDeadzone(dc, value)
  {
  }

  /** The deadzone is symmetric: deflecting the other way filters to the opposite value. */
  lemma DeadzoneOdd(dc: DriverControl, value: int)
    ensures ApplyDeadzone(dc, -value) == -ApplyDeadzone(dc, value)
  {
  }

  /** The axes as the array `readAxis` selects from: axis `k` is entry `k - 1`. */
  function Axes(c: Controller): seq<int> {
    [c.axis1, c.axis2, c.axis3, c.axis4]
  }

  /** `readAxis`: the position of the configured axis, 0 for an id outside 1..4. */
  function ReadAxis(c: Controller, axisId: int): (r: int)
    ensures 1 <= axisId <= 4 ==> r == Axes(c)[axisId - 1]
    ensures !(1 <= axisId <= 4) ==> r == 0
  {
    match axisId
    case 1 => c.axis1
    case 2 => c.axis2
    case 3 => c.axis3
    case 4 => c.axis4
    case _ => 0
  }

  function Min(a: real, b: real): real {
    if a <= b then a else b
  }

  function Max(a: real, b: real): real {
    if a >= b then a else b
  }

  /** `clamp`: `fmin(fmax(value, -100), 100)`. */
  function Clamp(x: real): (r: real)
    ensures -100.0 <= r <= 100.0
    ensures -100.0 <= x <= 100.0 ==> r == x
    ensures x < -100.0 ==> r == -100.0
    ensures x > 100.0 ==> r == 100.0
  {
    Min(Max(x, -100.0), 100.0)
  }

  /** Clamping keeps order and is a projection. */
  lemma ClampMonotoneIdempotent(x: real, y: real)
    ensures x <= y ==> Clamp(x) <= Clamp(y)
    ensures Clamp(Clamp(x)) == Clamp(x)
    ensures Clamp(-x) == -Clamp(x)
  {
  }

  /** C++ `/` on `int`: the quotient truncated toward zero (unlike Dafny's Euclidean `/`). */
  function TruncDiv(a: int, b: int): (q: int)
    requires b > 0
    ensures a >= 0 ==> q * b <= a < q * b + b
    ensures a < 0 ==> q * b - b < a <= q * b
  {
    if a >= 0 then a / b else -((-a) / b)
  }

  /** Truncating division commutes with negation. */
  lemma TruncDivOdd(a: int, b: int)
    requires b > 0
    ensures TruncDiv(-a, b) == -TruncDiv(a, b)
  {
  }

  /** The conversion `(int)x` of a double: truncation toward zero. */
  function TruncReal(x: real): (r: int)
    ensures x >= 0.0 ==> r as real <= x < r as real + 1.0
    ensures x < 0.0 ==> r as real - 1.0 < x <= r as real
  {
    if x >= 0.0 then x.Floor else -((-x).Floor)
  }

  /** The sensitivity in force: the slow-turn one while the slow-turn button is held. */
  function ActiveTurnSensitivity(dc: DriverControl, slowTurn: bool): (s: int)
    ensures s == dc.slowTurnSensitivity || s == dc.turnSensitivity
    ensures slowTurn ==> s == dc.slowTurnSensitivity
    ensures !slowTurn ==> s == dc.turnSensitivity
  {
    if slowTurn then dc.slowTurnSensitivity else dc.turnSensitivity
  }

  /** `scaledTurn`: the turn power times the sensitivity in percent, truncated toward zero. */
  function ScaledTurn(turnPower: int, sensitivity: int): (r: int)
    ensures Abs(r) * 100 <= Abs(turnPower * sensitivity) < (Abs(r) + 1) * 100
    ensures r == 0 || (r > 0 <==> turnPower * sensitivity > 0)
  {
    TruncDiv(turnPower * sensitivity, 100)
  }

  /**
   The curvature-mode turn: beyond a drive power of 5 the turn is scaled by
   `1 - |drive| / 200` and truncated toward zero.
   */
  function CurvatureTurn(drivePower: int, turnPower: int): (r: int)
    ensures Abs(drivePower) <= 5 ==> r == turnPower
    ensures Abs(drivePower) <= 200 ==> Abs(r) <= Abs(turnPower)
    ensures Abs(drivePower) <= 200 ==> r == 0 || (r > 0 <==> turnPower > 0)
  {
    if Abs(drivePower) > 5 then
      var factor := 1.0 - Abs(drivePower) as real / 200.0;
      CurvatureBound(turnPower, factor);
      TruncReal(turnPower as real * factor)
    else turnPower
  }

  /** A factor in [0, 1] scales an integer towards zero without crossing it. */
  lemma ScaleWithin(t: int, f: real)
    requires 0.0 <= f <= 1.0
    ensures t >= 0 ==> 0.0 <= t as real * f <= t as real
    ensures t < 0 ==> t as real <= t as real * f <= 0.0
  {
    var a := t as real;
    assert a - a * f == a * (1.0 - f);
    assert a * f == -((-a) * f);
  }

  /** Truncating a real that lies between zero and an integer neither passes that integer nor flips sign. */
  lemma TruncWithin(x: real, t: int)
    requires t >= 0 ==> 0.0 <= x <= t as real
    requires t < 0 ==> t as real <= x <= 0.0
    ensures Abs(TruncReal(x)) <= Abs(t)
    ensures TruncReal(x) == 0 || (TruncReal(x) > 0 <==> t > 0)
  {
  }

  /** Scaling by a factor in [0, 1] and truncating neither grows the magnitude nor flips the sign. */
  lemma CurvatureBound(t: int, f: real)
    ensures 0.0 <= f <= 1.0 ==> Abs(TruncReal(t as real * f)) <= Abs(t)
    ensures 0.0 <= f <= 1.0 ==> TruncReal(t as real * f) == 0 || (TruncReal(t as real * f) > 0 <==> t > 0)
  {
    if 0.0 <= f <= 1.0 {
      ScaleWithin(t, f);
      TruncWithin(t as real * f, t);
    }
  }

  /** The curvature turn is symmetric in the turn direction. */
  lemma CurvatureTurnOdd(drivePower: int, turnPower: int)
    ensures CurvatureTurn(drivePower, -turnPower) == -CurvatureTurn(drivePower, turnPower)
  {
    if Abs(drivePower) > 5 {
      var factor := 1.0 - Abs(drivePower) as real / 200.0;
      assert (-turnPower) as real * factor == -(turnPower as real * factor);
    }
  }

  /** The drive and turn powers of the non-tank modes, before scaling: `(drivePower, turnPower)`. */
  function Powers(dc: DriverControl, c: Controller): (r: (int, int))
    ensures r.0 == ApplyDeadzone(dc, ReadAxis(c, dc.axisDrive))
    ensures dc.controlType != Curvature ==> r.1 == ApplyDeadzone(dc, ReadAxis(c, dc.axisTurn))
    ensures dc.controlType == Curvature ==> r.1 == CurvatureTurn(r.0, ApplyDeadzone(dc, ReadAxis(c, dc.axisTurn)))
  {
    var drivePower := ApplyDeadzone(dc, ReadAxis(c, dc.axisDrive));
    var turnPower := ApplyDeadzone(dc, ReadAxis(c, dc.axisTurn));
    match dc.controlType
    case Curvature => (drivePower, CurvatureTurn(drivePower, turnPower))
    case _ => (drivePower, turnPower)
  }

  /**
   `calculate`: tank mode drives each side from its own axis through the curve, unclamped;
   every other mode mixes drive and scaled turn and clamps each side to [-100, 100].
   */
  function Calculate(dc: DriverControl, c: Controller, curve: (real, real) -> real, slowTurn: bool): (r: Outputs)
    ensures dc.controlType != Tank ==> -100.0 <= r.left <= 100.0 && -100.0 <= r.right <= 100.0
    ensures dc.controlType == Tank ==>
              r == Outputs(curve(ApplyDeadzone(dc, ReadAxis(c, dc.axisLeft)) as real, dc.exponent),
                           curve(ApplyDeadzone(dc, ReadAxis(c, dc.axisRight)) as real, dc.exponent))
    ensures dc.controlType != Tank ==>
              var (drivePower, turnPower) := Powers(dc, c);
              var d := curve(drivePower as real, dc.exponent);
              var t := curve(ScaledTurn(turnPower, ActiveTurnSensitivity(dc, slowTurn)) as real, dc.exponent);
              r.left == Clamp(d + t) && r.right == Clamp(d - t)
  {
    if dc.controlType == Tank then
      var leftPower := ApplyDeadzone(dc, ReadAxis(c, dc.axisLeft));
      var rightPower := ApplyDeadzone(dc, ReadAxis(c, dc.axisRight));
      Outputs(curve(leftPower as real, dc.exponent), curve(rightPower as real, dc.exponent))
    else
      var (drivePower, turnPower) := Powers(dc, c);
      var scaledTurn := ScaledTurn(turnPower, ActiveTurnSensitivity(dc, slowTurn));
      var targetDrive := curve(drivePower as real, dc.exponent);
      var targetTurn := curve(scaledTurn as real, dc.exponent);
      Outputs(Clamp(targetDrive + targetTurn), Clamp(targetDrive - targetTurn))
  }

  /**
   Tank mode reads only the left and right axes, the deadzone and the exponent: the slow-turn
   button, both turn sensitivities and the drive and turn axes make no difference.
   */
  lemma TankIgnoresTurnSettings(dc: DriverControl, dc': DriverControl, c: Controller, c': Controller,
                                curve: (real, real) -> real, slowTurn: bool, slowTurn': bool)
    requires dc.controlType == Tank && dc'.controlType == Tank
    requires dc.deadzone == dc'.deadzone && dc.exponent == dc'.exponent
    requires ReadAxis(c, dc.axisLeft) == ReadAxis(c', dc'.axisLeft)
    requires ReadAxis(c, dc.axisRight) == ReadAxis(c', dc'.axisRight)
    ensures Calculate(dc, c, curve, slowTurn) == Calculate(dc', c', curve, slowTurn')
  {
  }

  /** Arcade, split arcade and single stick compute the same outputs. */
  lemma ArcadeModesAgree(dc: DriverControl, c: Controller, curve: (real, real) -> real, slowTurn: bool)
    requires dc.controlType in {Arcade, SplitArcade, SingleStick}
    ensures Calculate(dc, c, curve, slowTurn) == Calculate(dc.(controlType := Arcade), c, curve, slowTurn)
    ensures Calculate(dc, c, curve, slowTurn) == Calculate(dc.(controlType := SplitArcade), c, curve, slowTurn)
    ensures Calculate(dc, c, curve, slowTurn) == Calculate(dc.(controlType := SingleStick), c, curve, slowTurn)
  {
  }

  /**
   With a curve that is odd in its input (as `applyCurve` is for a positive exponent), turning the other way swaps the
   two sides' outputs in every mode but tank.
   */
  lemma MirrorTurn(dc: DriverControl, c: Controller, c': Controller, curve: (real, real) -> real, slowTurn: bool)
    requires dc.controlType != Tank
    requires forall x: real :: curve(-x, dc.exponent) == -curve(x, dc.exponent)
    requires ReadAxis(c', dc.axisDrive) == ReadAxis(c, dc.axisDrive)
    requires ReadAxis(c', dc.axisTurn) == -ReadAxis(c, dc.axisTurn)
    ensures Calculate(dc, c', curve, slowTurn).left == Calculate(dc, c, curve, slowTurn).right
    ensures Calculate(dc, c', curve, slowTurn).right == Calculate(dc, c, curve, slowTurn).left
  {
    var sens := ActiveTurnSensitivity(dc, slowTurn);
    PowersMirror(dc, c, c');
    var turn := Powers(dc, c).1;
    ScaledTurnOdd(turn, sens);
    var s := ScaledTurn(turn, sens);
    assert curve((-s) as real, dc.exponent) == -curve(s as real, dc.exponent) by {
      assert (-s) as real == -(s as real);
    }
  }

  /** Negating the turn axis keeps the drive power and negates the turn power. */
  lemma PowersMirror(dc: DriverControl, c: Controller, c': Controller)
    requires ReadAxis(c', dc.axisDrive) == ReadAxis(c, dc.axisDrive)
    requires ReadAxis(c', dc.axisTurn) == -ReadAxis(c, dc.axisTurn)
    ensures Powers(dc, c').0 == Powers(dc, c).0
    ensures Powers(dc, c').1 == -Powers(dc, c).1
  {
    DeadzoneOdd(dc, ReadAxis(c, dc.axisTurn));
    if dc.controlType == Curvature {
      CurvatureTurnOdd(Powers(dc, c).0, ApplyDeadzone(dc, ReadAxis(c, dc.axisTurn)));
    }
  }

  /** The scaled turn is odd in the turn power. */
  lemma ScaledTurnOdd(turn: int, sens: int)
    ensures ScaledTurn(-turn, sens) == -ScaledTurn(turn, sens)
  {
    assert (-turn) * sens == -(turn * sens);
    TruncDivOdd(turn * sens, 100);
  }

  /**
   With the constructor's defaults (arcade, deadzone 10, drive on axis 3, turn on axis 1), a
   controller at rest within the deadzone drives neither side, whatever the slow-turn button.
   */
  lemma DefaultRestsInDeadzone(c: Controller, curve: (real, real) -> real, slowTurn: bool)
    requires Abs(c.axis3) < 10 && Abs(c.axis1) < 10
    requires curve(0.0, 2.0) == 0.0
    ensures Calculate(Default, c, curve, slowTurn) == Outputs(0.0, 0.0)
  {
    assert Powers(Default, c) == (0, 0);
    assert ScaledTurn(0, ActiveTurnSensitivity(Default, slowTurn)) == 0;
  }

  /** The configuration fields, to say which one a setter changes. */
  datatype Field =
    | ControlTypeField | DeadzoneField | ExponentField | TurnSensitivityField | SlowTurnSensitivityField
    | AxisDriveField | AxisTurnField | AxisLeftField | AxisRightField

  /** `a` and `b` agree on every field except possibly `f`. */
  predicate AgreeExcept(a: DriverControl, b: DriverControl, f: Field) {
    && (f != ControlTypeField ==> a.controlType == b.controlType)
    && (f != DeadzoneField ==> a.deadzone == b.deadzone)
    && (f != ExponentField ==> a.exponent == b.exponent)
    && (f != TurnSensitivityField ==> a.turnSensitivity == b.turnSensitivity)
    && (f != SlowTurnSensitivityField ==> a.slowTurnSensitivity == b.slowTurnSensitivity)
    && (f != AxisDriveField ==> a.axisDrive == b.axisDrive)
    && (f != AxisTurnField ==> a.axisTurn == b.axisTurn)
    && (f != AxisLeftField ==> a.axisLeft == b.axisLeft)
    && (f != AxisRightField ==> a.axisRight == b.axisRight)
  }

  function GetControlType(dc: DriverControl): ControlType { dc.controlType }
  function GetDeadzone(dc: DriverControl): int { dc.deadzone }
  function GetExponent(dc: DriverControl): real { dc.exponent }
  function GetTurnSensitivity(dc: DriverControl): int { dc.turnSensitivity }
  function GetSlowTurnSensitivity(dc: DriverControl): int { dc.slowTurnSensitivity }

  function SetControlType(dc: DriverControl, t: ControlType): (r: DriverControl)
    ensures GetControlType(r) == t && AgreeExcept(r, dc, ControlTypeField)
  {
    dc.(controlType := t)
  }

  function SetDeadzone(dc: DriverControl, v: int): (r: DriverControl)
    ensures GetDeadzone(r) == v && AgreeExcept(r, dc, DeadzoneField)
  {
    dc.(deadzone := v)
  }

  function SetExponent(dc: DriverControl, v: real): (r: DriverControl)
    ensures GetExponent(r) == v && AgreeExcept(r, dc, ExponentField)
  {
    dc.(exponent := v)
  }

  function SetTurnSensitivity(dc: DriverControl, v: int): (r: DriverControl)
    ensures GetTurnSensitivity(r) == v && AgreeExcept(r, dc, TurnSensitivityField)
  {
    dc.(turnSensitivity := v)
  }

  function SetSlowTurnSensitivity(dc: DriverControl, v: int): (r: DriverControl)
    ensures GetSlowTurnSensitivity(r) == v && AgreeExcept(r, dc, SlowTurnSensitivityField)
  {
    dc.(slowTurnSensitivity := v)
  }

  function SetAxisDrive(dc: DriverControl, a: int): (r: DriverControl)
    ensures r.axisDrive == a && AgreeExcept(r, dc, AxisDriveField)
  {
    dc.(axisDrive := a)
  }

  function SetAxisTurn(dc: DriverControl, a: int): (r: DriverControl)
    ensures r.axisTurn == a && AgreeExcept(r, dc, AxisTurnField)
  {
    dc.(axisTurn := a)
  }

  function SetAxisLeft(dc: DriverControl, a: int): (r: DriverControl)
    ensures r.axisLeft == a && AgreeExcept(r, dc, AxisLeftField)
  {
    dc.(axisLeft := a)
  }

  function SetAxisRight(dc: DriverControl, a: int): (r: DriverControl)
    ensures r.axisRight == a && AgreeExcept(r, dc, AxisRightField)
  {
    dc.(axisRight := a)
  }

  /** An axis id outside 1..4 silences that input: a drive axis set to it gives no drive power. */
  lemma UnknownAxisReadsZero(dc: DriverControl, c: Controller, a: int)
    requires !(1 <= a <= 4)
    ensures Powers(SetAxisDrive(dc, a), c).0 == 0
  {
  }
}

=== FILE: file_tree.dfy ===
/**
 An abstract file system: a tree of directories, regular files and entries of any
 other kind (symbolic links, sockets, devices). Paths are sequences of entry names
 relative to the node they are resolved against.
 */
module FileTree {

  type Byte = bv8
  type Path = seq<string>

  datatype Node =
    | Dir(entries: map<string, Node>)
    | File(content: seq<Byte>)
    | Other

  /** What resolving a path yields: the node, ENOENT, or ENOTDIR (a non-directory on the way). */
  datatype Stat = Found(node: Node) | Missing | NotDir

  /**
   `fs.stat` following the path from `n`: the empty path is `n` itself; a missing entry is
   ENOENT and can only be met while walking directories; a non-directory on the way is ENOTDIR.
   */
  function StatAt(n: Node, p: Path): (r: Stat)
    ensures p == [] ==> r == Found(n)
    ensures r.Missing? ==> p != [] && n.Dir?
    ensures r.NotDir? ==> p != []
    ensures p != [] && !n.Dir? ==> r.NotDir?
    ensures p != [] && r.Found? ==> n.Dir? && p[0] in n.entries
    ensures p != [] && n.Dir? && p[0] !in n.entries ==> r == Missing
    ensures |p| == 1 && n.Dir? ==> r == (if p[0] in n.entries then Found(n.entries[p[0]]) else Missing)
    decreases p
  {
    if p == [] then Found(n)
    else match n
      case Dir(m) => if p[0] in m then StatAt(m[p[0]], p[1..]) else Missing
      case _ => NotDir
  }

  predicate IsDirAt(n: Node, p: Path) {
    StatAt(n, p).Found? && StatAt(n, p).node.Dir?
  }

  predicate IsPrefix(q: Path, p: Path) {
    |q| <= |p| && q == p[..|q|]
  }

  /** Neither path lies inside the other. */
  predicate Disjoint(p: Path, q: Path) {
    !IsPrefix(p, q) && !IsPrefix(q, p)
  }

  /** Resolving `p + s` is resolving `s` from wherever `p` leads. */
  lemma {:induction false} StatAtAppend(n: Node, p: Path, s: Path)
    ensures StatAt(n, p + s) ==
      match StatAt(n, p)
      case Found(m) => StatAt(m, s)
      case Missing => Missing
      case NotDir => NotDir
    decreases p
  {
    if p == [] {
      assert p + s == s;
    } else {
      assert (p + s)[0] == p[0];
      assert (p + s)[1..] == p[1..] + s;
      match n
      case Dir(m) =>
        if p[0] in m {
          StatAtAppend(m[p[0]], p[1..], s);
        }
      case File(_) =>
      case Other =>
    }
  }

  /** Replaces the node at an existing path, the way a file write replaces a file's content. */
  function SetAt(n: Node, p: Path, v: Node): (r: Node)
    requires StatAt(n, p).Found?
    ensures StatAt(r, p) == Found(v)
    ensures r.Dir? == (p != [] || v.Dir?)
    decreases p
  {
    if p == [] then v
    else Dir(n.entries[p[0] := SetAt(n.entries[p[0]], p[1..], v)])
  }

  /** Writing back the node a path already holds changes nothing. */
  lemma {:induction false} SetAtSame(n: Node, p: Path, v: Node)
    requires StatAt(n, p) == Found(v)
    ensures SetAt(n, p, v) == n
    decreases p
  {
    if p != [] {
      SetAtSame(n.entries[p[0]], p[1..], v);
    }
  }

  /** Replacing the node at `p` leaves every path outside `p`'s line of ancestors as it was. */
  lemma {:induction false} SetAtFrame(n: Node, p: Path, v: Node, q: Path)
    requires StatAt(n, p).Found?
    requires Disjoint(p, q)
    ensures StatAt(SetAt(n, p, v), q) == StatAt(n, q)
    decreases p
  {
    assert p != [] && q != [];
    if q[0] == p[0] {
      assert !IsPrefix(p[1..], q[1..]) && !IsPrefix(q[1..], p[1..]);
      SetAtFrame(n.entries[p[0]], p[1..], v, q[1..]);
    }
  }

  /** Every path below `p` resolves inside the new node. */
  lemma SetAtBelow(n: Node, p: Path, v: Node, s: Path)
    requires StatAt(n, p).Found?
    ensures StatAt(SetAt(n, p, v), p + s) == StatAt(v, s)
  {
    StatAtAppend(SetAt(n, p, v), p, s);
  }

  /** `mkdir -p` can create `p`: it is missing, or it is already a directory. */
  predicate Creatable(n: Node, p: Path) {
    StatAt(n, p).Missing? || IsDirAt(n, p)
  }

  /** `mkdir(p, { recursive: true })`: creates `p` and every missing ancestor. */
  function MakeDirs(n: Node, p: Path): (r: Node)
    requires Creatable(n, p)
    ensures IsDirAt(r, p)
    ensures StatAt(n, p).Missing? ==> StatAt(r, p) == Found(Dir(map[]))
    ensures IsDirAt(n, p) ==> r == n
    ensures r.Dir?
    decreases p
  {
    if p == [] then n
    else
      var m := n.entries;
      var child := if p[0] in m then m[p[0]] else Dir(map[]);
      Dir(m[p[0] := MakeDirs(child, p[1..])])
  }

  /** `mkdir -p` changes nothing except the directories on the way to `p`. */
  lemma {:induction false} MakeDirsFrame(n: Node, p: Path, q: Path)
    requires Creatable(n, p)
    requires !IsPrefix(q, p)
    ensures StatAt(MakeDirs(n, p), q) == StatAt(n, q)
    decreases p
  {
    if IsDirAt(n, p) {
    } else {
      assert p != [] && q != [];
      var m := n.entries;
      var child := if p[0] in m then m[p[0]] else Dir(map[]);
      if q[0] == p[0] {
        assert !IsPrefix(q[1..], p[1..]);
        MakeDirsFrame(child, p[1..], q[1..]);
        if p[0] !in m {
          assert q[1..] != [];
        }
      }
    }
  }

  /** After `mkdir -p`, every ancestor of `p` is a directory. */
  lemma {:induction false} MakeDirsAncestors(n: Node, p: Path, q: Path)
    requires Creatable(n, p)
    requires IsPrefix(q, p)
    ensures IsDirAt(MakeDirs(n, p), q)
    decreases p
  {
    if q != [] {
      var m := n.entries;
      var child := if p[0] in m then m[p[0]] else Dir(map[]);
      assert IsPrefix(q[1..], p[1..]);
      MakeDirsAncestors(child, p[1..], q[1..]);
    }
  }

  /** Every proper ancestor of an existing path is a directory. */
  lemma AncestorIsDir(n: Node, q: Path, p: Path)
    requires IsPrefix(q, p) && q != p
    requires StatAt(n, p).Found?
    ensures IsDirAt(n, q)
  {
    assert p == q + p[|q|..];
    StatAtAppend(n, q, p[|q|..]);
  }

  /**
   Replacing a non-directory by a non-directory leaves every other path holding the same
   regular files: only the replaced path changes its file content.
   */
  lemma SetAtOtherFiles(n: Node, p: Path, v: Node, q: Path, content: seq<Byte>)
    requires StatAt(n, p).Found? && !StatAt(n, p).node.Dir? && !v.Dir?
    requires q != p
    ensures StatAt(SetAt(n, p, v), q) == Found(File(content)) <==> StatAt(n, q) == Found(File(content))
  {
    var r := SetAt(n, p, v);
    if Disjoint(p, q) {
      SetAtFrame(n, p, v, q);
    } else if IsPrefix(q, p) {
      AncestorIsDir(n, q, p);
      AncestorIsDir(r, q, p);
    } else {
      assert q == p + q[|p|..];
      StatAtAppend(n, p, q[|p|..]);
      StatAtAppend(r, p, q[|p|..]);
    }
  }
}

=== FILE: project_list.dfy ===
/**
 The projects panel: remembered project paths first, then the open workspace folders that
 are not listed yet, keeping only folders that look like a VEX project; a placeholder item
 stands in for an empty list.
 */
module ProjectList {
  import opened Wrappers
  import opened FileTree

  const MakefileName: string := "makefile"
  const DeviceDirName: string := "vex"
  const PlaceholderLabel: string := "No VEX projects found"

  datatype WorkspaceFolder = WorkspaceFolder(name: string, path: Path)

  /** A row of the panel; the placeholder row has the empty path and cannot be opened. */
  datatype ProjectItem = ProjectItem(displayName: string, projectPath: Path, isPlaceholder: bool)

  /** The `contextValue` the item carries, which decides the commands offered on it. */
  function ContextValue(item: ProjectItem): string {
    if item.isPlaceholder then "placeholder" else "vexProject"
  }

  const Placeholder: ProjectItem := ProjectItem(PlaceholderLabel, [], true)

  /** `path.basename`: the last component of a path. */
  function BaseName(p: Path): string {
    if p == [] then "" else p[|p| - 1]
  }

  /**
   `isVexProject`: entries named `makefile` and `vex` both exist directly under the path, of
   any kind; a qualifying path is therefore a directory holding both names.
   */
  function IsVexProject(fs: Node, p: Path): (r: bool)
    ensures r <==> IsDirAt(fs, p) && MakefileName in StatAt(fs, p).node.entries
                   && DeviceDirName in StatAt(fs, p).node.entries
  {
    StatAtAppend(fs, p, [MakefileName]);
    StatAtAppend(fs, p, [DeviceDirName]);
    StatAt(fs, p + [MakefileName]).Found? && StatAt(fs, p + [DeviceDirName]).Found?
  }

  /** `projects.some(p => p.projectPath === path)`. */
  predicate Listed(items: seq<ProjectItem>, p: Path) {
    exists i :: 0 <= i < |items| && items[i].projectPath == p
  }

  /** The first loop of `getChildren`: the remembered paths that qualify, in stored order. */
  function RememberedItems(fs: Node, recent: seq<Path>): (r: seq<ProjectItem>)
    ensures |r| <= |recent|
    ensures forall k :: 0 <= k < |r| ==>
              !r[k].isPlaceholder && r[k].displayName == BaseName(r[k].projectPath) && IsVexProject(fs, r[k].projectPath)
    decreases |recent|
  {
    if recent == [] then []
    else
      var prev := RememberedItems(fs, recent[..|recent| - 1]);
      var p := recent[|recent| - 1];
      if IsVexProject(fs, p) then prev + [ProjectItem(BaseName(p), p, false)] else prev
  }

  /** The second loop of `getChildren`: qualifying workspace folders whose path is not listed yet. */
  function AddFolders(fs: Node, items: seq<ProjectItem>, folders: seq<WorkspaceFolder>): (r: seq<ProjectItem>)
    ensures |items| <= |r| <= |items| + |folders|
    ensures r[..|items|] == items
    decreases |folders|
  {
    if folders == [] then items
    else
      var prev := AddFolders(fs, items, folders[..|folders| - 1]);
      var f := folders[|folders| - 1];
      if IsVexProject(fs, f.path) && !Listed(prev, f.path) then prev + [ProjectItem(f.name, f.path, false)] else prev
  }

  function FolderList(folders: Option<seq<WorkspaceFolder>>): seq<WorkspaceFolder> {
    match folders
    case None => []
    case Some(fs) => fs
  }

  /** The list `getChildren` resolves to, as a reference for the loop-based method. */
  function ProjectChildren(fs: Node, element: Option<ProjectItem>, recent: seq<Path>,
                           folders: Option<seq<WorkspaceFolder>>): (r: seq<ProjectItem>)
    ensures element.Some? <==> r == []
    ensures forall k :: 0 <= k < |r| ==> (ContextValue(r[k]) == "placeholder" <==> r == [Placeholder])
  {
    NoPlaceholderCollected(fs, recent, FolderList(folders));
    if element.Some? then []
    else
      var projects := AddFolders(fs, RememberedItems(fs, recent), FolderList(folders));
      if projects == [] then [Placeholder] else projects
  }

  /**
   `getChildren(element)`: `recent` is the remembered `vexProjects` list of the workspace
   state and `folders` the open workspace folders (`None` when no folder is open).
   */
  method GetChildren(fs: Node, element: Option<ProjectItem>, recent: seq<Path>,
                     folders: Option<seq<WorkspaceFolder>>) returns (r: seq<ProjectItem>)
    ensures r == ProjectChildren(fs, element, recent, folders)
  {
    if element.Some? {
      return [];
    }
    var projects: seq<ProjectItem> := [];
    var i := 0;
    while i < |recent|
      invariant 0 <= i <= |recent|
      invariant projects == RememberedItems(fs, recent[..i])
    {
      var p := recent[i];
      assert recent[..i + 1][..i] == recent[..i];
      if IsVexProject(fs, p) {
        projects := projects + [ProjectItem(BaseName(p), p, false)];
      }
      i := i + 1;
    }
    assert recent[..|recent|] == recent;
    var remembered := projects;
    var open := FolderList(folders);
    var j := 0;
    while j < |open|
      invariant 0 <= j <= |open|
      invariant projects == AddFolders(fs, remembered, open[..j])
    {
      var f := open[j];
      assert open[..j + 1][..j] == open[..j];
      if IsVexProject(fs, f.path) {
        var alreadyAdded := Listed(projects, f.path);
        if !alreadyAdded {
          projects := projects + [ProjectItem(f.name, f.path, false)];
        }
      }
      j := j + 1;
    }
    assert open[..|open|] == open;
    if |projects| == 0 {
      return [Placeholder];
    }
    return projects;
  }

  /** Filtering the remembered paths distributes over concatenation: stored order is kept. */
  lemma {:induction false} RememberedItemsAppend(fs: Node, a: seq<Path>, b: seq<Path>)
    ensures RememberedItems(fs, a + b) == RememberedItems(fs, a) + RememberedItems(fs, b)
    decreases |b|
  {
    if b == [] {
      assert a + b == a;
    } else {
      var b' := b[..|b| - 1];
      assert (a + b)[..|a + b| - 1] == a + b';
      assert (a + b)[|a + b| - 1] == b[|b| - 1];
      RememberedItemsAppend(fs, a, b');
    }
  }

  /** Appending an item lists its path in addition to those listed before. */
  lemma ListedSnoc(items: seq<ProjectItem>, item: ProjectItem, p: Path)
    ensures Listed(items + [item], p) <==> Listed(items, p) || item.projectPath == p
  {
    if Listed(items, p) {
      var k :| 0 <= k < |items| && items[k].projectPath == p;
      assert (items + [item])[k] == items[k];
    }
    if item.projectPath == p {
      assert (items + [item])[|items|] == item;
    }
  }

  /** A remembered path is listed exactly when it qualifies. */
  lemma {:induction false} RememberedItemsListed(fs: Node, recent: seq<Path>, p: Path)
    ensures Listed(RememberedItems(fs, recent), p) <==> p in recent && IsVexProject(fs, p)
    decreases |recent|
  {
    if recent != [] {
      var prev := recent[..|recent| - 1];
      var last := recent[|recent| - 1];
      RememberedItemsListed(fs, prev, p);
      assert recent == prev + [last];
      assert p in recent <==> p in prev || p == last;
      if IsVexProject(fs, last) {
        ListedSnoc(RememberedItems(fs, prev), ProjectItem(BaseName(last), last, false), p);
      }
    }
  }

  /** A remembered path is listed exactly when it qualifies; every item is a labelled project. */
  lemma RememberedItemsMembers(fs: Node, recent: seq<Path>, p: Path)
    ensures Listed(RememberedItems(fs, recent), p) <==> p in recent && IsVexProject(fs, p)
    ensures forall k :: 0 <= k < |RememberedItems(fs, recent)| ==>
              var item := RememberedItems(fs, recent)[k];
              !item.isPlaceholder && item.displayName == BaseName(item.projectPath) && IsVexProject(fs, item.projectPath)
  {
    RememberedItemsListed(fs, recent, p);
  }

  /**
   Adding the workspace folders keeps the items already listed as a prefix; each added item
   is a qualifying folder whose path was not listed before it, so added paths are distinct.
   */
  lemma {:induction false} AddFoldersShape(fs: Node, items: seq<ProjectItem>, folders: seq<WorkspaceFolder>)
    ensures |items| <= |AddFolders(fs, items, folders)|
    ensures AddFolders(fs, items, folders)[..|items|] == items
    ensures forall k :: |items| <= k < |AddFolders(fs, items, folders)| ==>
              var item := AddFolders(fs, items, folders)[k];
              && !item.isPlaceholder
              && IsVexProject(fs, item.projectPath)
              && (exists f :: f in folders && f.path == item.projectPath && f.name == item.displayName)
              && !Listed(AddFolders(fs, items, folders)[..k], item.projectPath)
    decreases |folders|
  {
    if folders != [] {
      var prev := folders[..|folders| - 1];
      var f := folders[|folders| - 1];
      AddFoldersShape(fs, items, prev);
      var before := AddFolders(fs, items, prev);
      var r := AddFolders(fs, items, folders);
      forall k | |items| <= k < |r|
        ensures && !r[k].isPlaceholder && IsVexProject(fs, r[k].projectPath)
                && (exists g :: g in folders && g.path == r[k].projectPath && g.name == r[k].displayName)
                && !Listed(r[..k], r[k].projectPath)
      {
        if k < |before| {
          assert r[k] == before[k];
          assert r[..k] == before[..k];
          var g :| g in prev && g.path == before[k].projectPath && g.name == before[k].displayName;
          assert g in folders;
        } else {
          assert r[..k] == before;
          assert f in folders;
        }
      }
    }
  }

  /** Every qualifying workspace folder's path ends up listed. */
  lemma {:induction false} AddFoldersComplete(fs: Node, items: seq<ProjectItem>, folders: seq<WorkspaceFolder>, f: WorkspaceFolder)
    requires f in folders && IsVexProject(fs, f.path)
    ensures Listed(AddFolders(fs, items, folders), f.path)
    decreases |folders|
  {
    var prev := folders[..|folders| - 1];
    var before := AddFolders(fs, items, prev);
    AddFoldersShape(fs, items, prev);
    AddFoldersShape(fs, items, folders);
    var r := AddFolders(fs, items, folders);
    assert r[..|before|] == before;
    if f in prev {
      AddFoldersComplete(fs, items, prev, f);
      var k :| 0 <= k < |before| && before[k].projectPath == f.path;
      assert r[k] == before[k];
    } else {
      assert f == folders[|folders| - 1];
      if !Listed(before, f.path) {
        assert r[|r| - 1].projectPath == f.path;
      } else {
        var k :| 0 <= k < |before| && before[k].projectPath == f.path;
        assert r[k] == before[k];
      }
    }
  }

  /** A path listed after adding the folders was listed before or is a qualifying folder's path. */
  lemma AddFoldersSound(fs: Node, items: seq<ProjectItem>, folders: seq<WorkspaceFolder>, p: Path)
    requires Listed(AddFolders(fs, items, folders), p)
    ensures Listed(items, p) || (IsVexProject(fs, p) && exists f :: f in folders && f.path == p)
  {
    AddFoldersShape(fs, items, folders);
    var r := AddFolders(fs, items, folders);
    var k :| 0 <= k < |r| && r[k].projectPath == p;
    if k < |items| {
      assert r[k] == items[k];
    }
  }

  predicate InFolders(folders: seq<WorkspaceFolder>, p: Path) {
    exists f :: f in folders && f.path == p
  }

  /** After both loops a path is listed exactly when it qualifies and is remembered or open. */
  lemma ListedIffQualifying(fs: Node, recent: seq<Path>, open: seq<WorkspaceFolder>, p: Path)
    ensures Listed(AddFolders(fs, RememberedItems(fs, recent), open), p)
        <==> IsVexProject(fs, p) && (p in recent || InFolders(open, p))
  {
    var rem := RememberedItems(fs, recent);
    var all := AddFolders(fs, rem, open);
    AddFoldersShape(fs, rem, open);
    RememberedItemsMembers(fs, recent, p);
    if Listed(all, p) {
      AddFoldersSound(fs, rem, open, p);
    }
    if IsVexProject(fs, p) {
      if p in recent {
        var k :| 0 <= k < |rem| && rem[k].projectPath == p;
        assert all[k] == rem[k];
      } else if InFolders(open, p) {
        var f :| f in open && f.path == p;
        AddFoldersComplete(fs, rem, open, f);
      }
    }
  }

  /** Adding two runs of folders is adding the first run, then the second: folders keep their order. */
  lemma {:induction false} AddFoldersAppend(fs: Node, items: seq<ProjectItem>, a: seq<WorkspaceFolder>, b: seq<WorkspaceFolder>)
    ensures AddFolders(fs, items, a + b) == AddFolders(fs, AddFolders(fs, items, a), b)
    decreases |b|
  {
    if b == [] {
      assert a + b == a;
    } else {
      var b' := b[..|b| - 1];
      assert (a + b)[..|a + b| - 1] == a + b';
      assert (a + b)[|a + b| - 1] == b[|b| - 1];
      AddFoldersAppend(fs, items, a, b');
    }
  }

  /** Neither loop produces a placeholder item. */
  lemma NoPlaceholderCollected(fs: Node, recent: seq<Path>, open: seq<WorkspaceFolder>)
    ensures forall k :: 0 <= k < |AddFolders(fs, RememberedItems(fs, recent), open)| ==>
              !AddFolders(fs, RememberedItems(fs, recent), open)[k].isPlaceholder
  {
    var rem := RememberedItems(fs, recent);
    var all := AddFolders(fs, rem, open);
    AddFoldersShape(fs, rem, open);
    RememberedItemsMembers(fs, recent, []);
    forall k | 0 <= k < |all| ensures !all[k].isPlaceholder {
      if k < |rem| {
        assert all[k] == rem[k];
      }
    }
  }

  /**
   The panel lists a path exactly when it qualifies and is remembered or open; it shows the
   placeholder alone exactly when no remembered or open path qualifies.
   */
  lemma ProjectChildrenMembers(fs: Node, recent: seq<Path>, folders: Option<seq<WorkspaceFolder>>, p: Path)
    ensures var r := ProjectChildren(fs, None, recent, folders);
            && (r == [Placeholder] <==> forall q :: (q in recent || InFolders(FolderList(folders), q)) ==> !IsVexProject(fs, q))
            && (r != [Placeholder] ==>
                  && (forall k :: 0 <= k < |r| ==> !r[k].isPlaceholder)
                  && (Listed(r, p) <==> IsVexProject(fs, p) && (p in recent || InFolders(FolderList(folders), p))))
  {
    var open := FolderList(folders);
    var all := AddFolders(fs, RememberedItems(fs, recent), open);
    NoPlaceholderCollected(fs, recent, open);
    ListedIffQualifying(fs, recent, open, p);
    if all == [] {
      forall q | q in recent || InFolders(open, q) ensures !IsVexProject(fs, q) {
        ListedIffQualifying(fs, recent, open, q);
      }
    } else {
      assert all != [Placeholder] by {
        assert !all[0].isPlaceholder;
      }
      var q := all[0].projectPath;
      assert Listed(all, q);
      ListedIffQualifying(fs, recent, open, q);
    }
  }

  /** Remembered `[A, B]`, open `[B, C]`, only `A` and `C` qualify: the panel lists `A` then `C`. */
  lemma ListExample(fs: Node, a: Path, b: Path, c: Path)
    requires IsVexProject(fs, a) && !IsVexProject(fs, b) && IsVexProject(fs, c)
    requires a != c
    ensures var r := ProjectChildren(fs, None, [a, b], Some([WorkspaceFolder("B", b), WorkspaceFolder("C", c)]));
            |r| == 2 && r[0].projectPath == a && r[1].projectPath == c
  {
    assert [a][..0] == [];
    assert RememberedItems(fs, [a]) == [ProjectItem(BaseName(a), a, false)];
    assert [a, b][..1] == [a];
    var rem := RememberedItems(fs, [a, b]);
    assert rem == [ProjectItem(BaseName(a), a, false)];
    var open := [WorkspaceFolder("B", b), WorkspaceFolder("C", c)];
    assert open[..1] == [WorkspaceFolder("B", b)];
    assert open[..1][..0] == [];
    assert AddFolders(fs, rem, open[..1]) == rem;
    assert !Listed(rem, c);
  }
}

=== FILE: project_name.dfy ===
/**
 The project-name prompt of the create-project command: the inline validator of the
 input box and the trim applied to the value the box accepts.
 */
module ProjectName {
  import opened Wrappers

  const EmptyNameMessage: string := "Please enter a project name."
  const CharsetMessage: string := "Use letters, numbers, dot, underscore, or dash only."

  /** The code points `String.prototype.trim` removes: ECMAScript WhiteSpace and LineTerminator. */
  predicate IsWhitespace(c: char) {
    || c == '\t' || c == '\n' || c == '\U{B}' || c == '\U{C}' || c == '\r' || c == ' '
    || c == '\U{A0}' || c == '\U{1680}' || ('\U{2000}' <= c <= '\U{200A}')
    || c == '\U{2028}' || c == '\U{2029}' || c == '\U{202F}' || c == '\U{205F}'
    || c == '\U{3000}' || c == '\U{FEFF}'
  }

  /** The allow-list of the pattern: `A-Z`, `a-z`, `0-9`, `.`, `_` and `-`. */
  predicate IsAllowedChar(c: char) {
    ('A' <= c <= 'Z') || ('a' <= c <= 'z') || ('0' <= c <= '9') || c == '.' || c == '_' || c == '-'
  }

  predicate AllWhitespace(s: string) {
    forall i :: 0 <= i < |s| ==> IsWhitespace(s[i])
  }

  predicate AllAllowed(s: string) {
    forall i :: 0 <= i < |s| ==> IsAllowedChar(s[i])
  }

  /** Whitespace strings are closed under concatenation. */
  lemma AllWhitespaceConcat(a: string, b: string)
    requires AllWhitespace(a) && AllWhitespace(b)
    ensures AllWhitespace(a + b)
  {
    forall i | 0 <= i < |a + b|
      ensures IsWhitespace((a + b)[i])
    {
      if i < |a| {
        assert (a + b)[i] == a[i];
      } else {
        assert (a + b)[i] == b[i - |a|];
      }
    }
  }

  /** A leading whitespace character joins the whitespace removed from the rest. */
  lemma TrimStartStep(s: string, r: string)
    requires 0 < |s| && IsWhitespace(s[0])
    requires |r| <= |s| - 1 && r == s[1..][|s| - 1 - |r|..]
    requires AllWhitespace(s[1..][..|s| - 1 - |r|])
    ensures r == s[|s| - |r|..]
    ensures AllWhitespace(s[..|s| - |r|])
  {
    var k := |s| - 1 - |r|;
    assert s[1..][k..] == s[k + 1..];
    assert s[..k + 1] == [s[0]] + s[1..][..k];
    assert AllWhitespace([s[0]]);
    AllWhitespaceConcat([s[0]], s[1..][..k]);
  }

  /** A trailing whitespace character joins the whitespace removed from the rest. */
  lemma TrimEndStep(s: string, r: string)
    requires 0 < |s| && IsWhitespace(s[|s| - 1])
    requires |r| <= |s| - 1 && r == s[..|s| - 1][..|r|]
    requires AllWhitespace(s[..|s| - 1][|r|..])
    ensures r == s[..|r|]
    ensures AllWhitespace(s[|r|..])
  {
    assert s[..|s| - 1][..|r|] == s[..|r|];
    assert s[|r|..] == s[..|s| - 1][|r|..] + [s[|s| - 1]];
    assert AllWhitespace([s[|s| - 1]]);
    AllWhitespaceConcat(s[..|s| - 1][|r|..], [s[|s| - 1]]);
  }

  function TrimStart(s: string): (r: string)
    ensures |r| <= |s| && r == s[|s| - |r|..]
    ensures AllWhitespace(s[..|s| - |r|])
    ensures r == [] || !IsWhitespace(r[0])
  {
    if |s| > 0 && IsWhitespace(s[0]) then
      var r := TrimStart(s[1..]);
      TrimStartStep(s, r);
      r
    else
      s
  }

  function TrimEnd(s: string): (r: string)
    ensures |r| <= |s| && r == s[..|r|]
    ensures AllWhitespace(s[|r|..])
    ensures r == [] || !IsWhitespace(r[|r| - 1])
  {
    if |s| > 0 && IsWhitespace(s[|s| - 1]) then
      var r := TrimEnd(s[..|s| - 1]);
      TrimEndStep(s, r);
      r
    else
      s
  }

  /** The whitespace on either side of a trimmed infix. */
  predicate TrimmedAt(s: string, r: string, i: int, j: int) {
    0 <= i <= j <= |s| && r == s[i..j] && AllWhitespace(s[..i]) && AllWhitespace(s[j..])
  }

  /** Removing a prefix and then a suffix leaves an infix with whitespace on either side. */
  lemma TrimSplit(s: string, t: string, r: string)
    requires |t| <= |s| && t == s[|s| - |t|..] && AllWhitespace(s[..|s| - |t|])
    requires |r| <= |t| && r == t[..|r|] && AllWhitespace(t[|r|..])
    ensures TrimmedAt(s, r, |s| - |t|, |s| - |t| + |r|)
  {
    var i := |s| - |t|;
    assert s[i..][..|r|] == s[i..i + |r|];
    assert s[i + |r|..] == t[|r|..];
  }

  /** `String.prototype.trim`: the infix left after removing whitespace at both ends. */
  function Trim(s: string): (r: string)
    ensures exists i, j :: TrimmedAt(s, r, i, j)
    ensures r == [] || (!IsWhitespace(r[0]) && !IsWhitespace(r[|r| - 1]))
  {
    var t := TrimStart(s);
    var r := TrimEnd(t);
    TrimSplit(s, t, r);
    r
  }

  /** The trim of a string is empty exactly when every character of it is whitespace. */
  lemma TrimEmptyIffAllWhitespace(s: string)
    ensures Trim(s) == [] <==> AllWhitespace(s)
  {
    var r := Trim(s);
    var i, j :| TrimmedAt(s, r, i, j);
    if r == [] {
      forall k | 0 <= k < |s|
        ensures IsWhitespace(s[k])
      {
        if k < i {
          assert s[k] == s[..i][k];
        } else {
          assert s[k] == s[j..][k - j];
        }
      }
    } else {
      assert s[i] == r[0];
    }
  }

  /** A string with no whitespace is its own trim. */
  lemma TrimIdentity(s: string)
    requires forall k :: 0 <= k < |s| ==> !IsWhitespace(s[k])
    ensures Trim(s) == s
  {
    var r := Trim(s);
    var i, j :| TrimmedAt(s, r, i, j);
  }

  /** `/[^A-Za-z0-9._-]/.test(s)`: the pattern finds a character outside the allow-list. */
  function HasDisallowedChar(s: string): (r: bool)
    ensures r <==> exists i :: 0 <= i < |s| && !IsAllowedChar(s[i])
  {
    if s == [] then false
    else if !IsAllowedChar(s[0]) then true
    else
      var r := HasDisallowedChar(s[1..]);
      assert forall i :: 1 <= i < |s| ==> s[i] == s[1..][i - 1];
      r
  }

  /**
   The input box's `validateInput`: `None` accepts the text, `Some(message)` rejects it
   with that message. The pattern is matched against the text as typed, not on its trim.
   */
  function ValidateInput(input: string): (r: Option<string>)
    ensures r == Some(EmptyNameMessage) <==> AllWhitespace(input)
    ensures r == Some(CharsetMessage) <==> !AllWhitespace(input) && !AllAllowed(input)
    ensures r.None? <==> |input| > 0 && AllAllowed(input)
  {
    TrimEmptyIffAllWhitespace(input);
    if Trim(input) == [] then Some(EmptyNameMessage)
    else if HasDisallowedChar(input) then Some(CharsetMessage)
    else None
  }

  /** No allowed character is whitespace, so text that passes the pattern has nothing to trim. */
  lemma AllowedIsNotWhitespace(c: char)
    requires IsAllowedChar(c)
    ensures !IsWhitespace(c)
  {
  }

  /**
   `promptForProjectName`: `submitted` is the text the operator confirms, `None` when the box
   is dismissed. The box only closes on text its validator accepts; text it rejects never
   yields a name. The accepted text is returned trimmed.
   */
  function AcceptName(submitted: Option<string>): (r: Option<string>)
    ensures r.Some? <==> submitted.Some? && ValidateInput(submitted.value).None?
    ensures r.Some? ==> r == submitted && |r.value| > 0 && AllAllowed(r.value)
  {
    match submitted
    case None => None
    case Some(s) =>
      if ValidateInput(s).None? then
        forall k | 0 <= k < |s| ensures !IsWhitespace(s[k]) {
          AllowedIsNotWhitespace(s[k]);
        }
        TrimIdentity(s);
        Some(Trim(s))
      else None
  }

  /** The names `.` and `..` pass the validator although they are not folder names. */
  lemma DotNamesAccepted()
    ensures AcceptName(Some(".")) == Some(".")
    ensures AcceptName(Some("..")) == Some("..")
  {
    assert AllAllowed(".");
    assert AllAllowed("..");
  }
}

=== FILE: scaffold.dfy ===
/**
 The create-project pipeline: the target path is the chosen folder joined with the
 accepted name; the target must be missing or an empty folder; the bundled template is
 copied into it without the fixed skip set; then the settings file is stamped.
 */
module Scaffold {
  import opened Wrappers
  import opened FileTree
  import Settings

  /** Entry names never copied, at any depth. */
  const SkipEntries: set<string> := {".git", ".vsix", "node_modules", "out", "build"}

  datatype Error =
    | NotAFolder                 // the target exists and is not a directory
    | NotEmpty                   // the target is a directory with entries
    | NotADirectory(path: Path)  // ENOTDIR raised by the file system
    | NoSuchEntry(path: Path)    // ENOENT raised by the file system

  /**
   The message the operator sees after "Unable to create project: "; each of the two checks
   of `ensureEmptyDirectory` has a message of its own.
   */
  function Message(e: Error): (r: string)
    ensures r == "Destination exists and is not a folder." <==> e.NotAFolder?
    ensures r == "Destination folder is not empty." <==> e.NotEmpty?
  {
    match e
    case NotAFolder => "Destination exists and is not a folder."
    case NotEmpty => "Destination folder is not empty."
    case NotADirectory(_) => "ENOTDIR: not a directory"
    case NoSuchEntry(_) => "ENOENT: no such file or directory"
  }

  /**
   `path.join(destination, name)` for a single path segment: `.` (and the empty name)
   stays in `destination`, `..` steps out to its parent, any other name descends.
   */
  function Join(destination: Path, name: string): (r: Path)
    ensures name != "" && name != "." && name != ".." ==> r == destination + [name]
    ensures name == "." ==> r == destination
    ensures name == ".." && destination != [] ==> r + [destination[|destination| - 1]] == destination
  {
    if name == "" || name == "." then destination
    else if name == ".." then (if destination == [] then [] else destination[..|destination| - 1])
    else destination + [name]
  }

  /**
   `ensureEmptyDirectory(targetPath)`: succeeds on an empty folder (unchanged) or a missing
   path (created with its missing ancestors); every other state is an error and the tree
   is left as it was.
   */
  function EnsureEmptyDirectory(fs: Node, target: Path): (r: Result<Node, Error>)
    ensures r.Success? <==> StatAt(fs, target).Missing? || StatAt(fs, target) == Found(Dir(map[]))
    ensures r.Success? ==> StatAt(r.value, target) == Found(Dir(map[]))
    ensures StatAt(fs, target) == Found(Dir(map[])) ==> r == Success(fs)
    ensures r == Failure(NotAFolder) <==> StatAt(fs, target).Found? && !StatAt(fs, target).node.Dir?
    ensures r == Failure(NotEmpty) <==> IsDirAt(fs, target) && StatAt(fs, target).node.entries != map[]
    ensures r == Failure(NotADirectory(target)) <==> StatAt(fs, target).NotDir?
  {
    match StatAt(fs, target)
    case Found(Dir(m)) => if |m| == 0 then Success(fs) else Failure(NotEmpty)
    case Found(_) => Failure(NotAFolder)
    case Missing => Success(MakeDirs(fs, target))
    case NotDir => Failure(NotADirectory(target))
  }

  /** Preparing the target changes nothing but the target and its ancestors. */
  lemma EnsureEmptyFrame(fs: Node, target: Path, q: Path)
    requires EnsureEmptyDirectory(fs, target).Success?
    requires !IsPrefix(q, target)
    ensures StatAt(EnsureEmptyDirectory(fs, target).value, q) == StatAt(fs, q)
  {
    if StatAt(fs, target).Missing? {
      MakeDirsFrame(fs, target, q);
    }
  }

  /** Choosing `..` as the name targets the chosen folder's parent, which holds that folder. */
  lemma DotDotTargetIsNotEmpty(fs: Node, destination: Path)
    requires destination != [] && StatAt(fs, destination).Found?
    ensures EnsureEmptyDirectory(fs, Join(destination, "..")) == Failure(NotEmpty)
  {
    var parent := Join(destination, "..");
    var last := destination[|destination| - 1];
    StatAtAppend(fs, parent, [last]);
  }

  /** No component of the path is a skipped name. */
  predicate Clean(p: Path) {
    forall i :: 0 <= i < |p| ==> p[i] !in SkipEntries
  }

  /**
   The tree `copyDirectory` produces from a node: a directory keeps its entries that are not
   skipped and are directories or regular files, each copied in turn; a file is copied verbatim.
   */
  function CopyNode(n: Node): (r: Node)
    ensures r.Dir? <==> n.Dir?
    ensures !n.Dir? ==> r == n
    ensures n.Dir? ==> forall name :: name in r.entries <==>
              name in n.entries && name !in SkipEntries && !n.entries[name].Other?
    ensures n.Dir? ==> forall name :: name in r.entries ==> !r.entries[name].Other?
  {
    match n
    case Dir(m) => Dir(map name | name in m && name !in SkipEntries && !m[name].Other? :: CopyNode(m[name]))
    case _ => n
  }

  /**
   The copy holds a node at `p` exactly when the source holds a directory or a regular file
   there and no component of `p` is skipped; that node is the copy of the source's node.
   */
  lemma {:induction false} CopiedAt(n: Node, p: Path)
    requires !n.Other?
    ensures StatAt(CopyNode(n), p).Found? <==> Clean(p) && StatAt(n, p).Found? && !StatAt(n, p).node.Other?
    ensures StatAt(CopyNode(n), p).Found? ==> StatAt(CopyNode(n), p) == Found(CopyNode(StatAt(n, p).node))
    decreases p
  {
    if p != [] {
      assert Clean(p) <==> p[0] !in SkipEntries && Clean(p[1..]) by {
        if p[0] !in SkipEntries && Clean(p[1..]) {
          forall i | 0 <= i < |p| ensures p[i] !in SkipEntries {
            if i > 0 {
              assert p[i] == p[1..][i - 1];
            }
          }
        }
      }
      match n
      case Dir(m) =>
        if p[0] in m && p[0] !in SkipEntries && !m[p[0]].Other? {
          CopiedAt(m[p[0]], p[1..]);
        } else if p[0] in m && m[p[0]].Other? && p[1..] != [] {
          assert StatAt(n, p) == NotDir;
        }
      case File(_) =>
    }
  }

  /** No entry with a skipped name appears anywhere in the copy, so nothing beneath one does. */
  lemma CopySkipsEverywhere(n: Node, p: Path)
    requires !n.Other?
    requires StatAt(CopyNode(n), p).Found?
    ensures forall i :: 0 <= i < |p| ==> p[i] !in SkipEntries
  {
    CopiedAt(n, p);
  }

  /** A file is in the copy, with the same bytes, exactly when it is at the same clean path in the source. */
  lemma CopyPreservesFiles(n: Node, p: Path, content: seq<Byte>)
    requires !n.Other?
    ensures StatAt(CopyNode(n), p) == Found(File(content)) <==> Clean(p) && StatAt(n, p) == Found(File(content))
  {
    CopiedAt(n, p);
  }

  /** Entries that are neither directories nor regular files are never copied. */
  lemma CopyDropsSpecialEntries(n: Node, p: Path)
    requires !n.Other?
    ensures StatAt(CopyNode(n), p) != Found(Other)
  {
    CopiedAt(n, p);
  }

  /**
   `copyDirectory(source, destination)` into an empty destination folder, the state its caller
   establishes (so its `mkdir` is a no-op); being outside the template is assumed. Reading a
   missing or non-directory source fails before anything is written.
   */
  function CopyDirectory(fs: Node, source: Path, destination: Path): (r: Result<Node, Error>)
    requires Disjoint(source, destination)
    requires StatAt(fs, destination) == Found(Dir(map[]))
    ensures r.Success? <==> IsDirAt(fs, source)
    ensures StatAt(fs, source).Missing? ==> r == Failure(NoSuchEntry(source))
    ensures !StatAt(fs, source).Missing? && !IsDirAt(fs, source) ==> r == Failure(NotADirectory(source))
    ensures r.Success? ==> forall s :: StatAt(r.value, destination + s) == StatAt(CopyNode(StatAt(fs, source).node), s)
    ensures r.Success? ==> forall q :: Disjoint(destination, q) ==> StatAt(r.value, q) == StatAt(fs, q)
  {
    match StatAt(fs, source)
    case Found(Dir(m)) =>
      var fs' := SetAt(fs, destination, CopyNode(Dir(m)));
      forall s ensures StatAt(fs', destination + s) == StatAt(CopyNode(Dir(m)), s) {
        SetAtBelow(fs, destination, CopyNode(Dir(m)), s);
      }
      forall q | Disjoint(destination, q) ensures StatAt(fs', q) == StatAt(fs, q) {
        SetAtFrame(fs, destination, CopyNode(Dir(m)), q);
      }
      Success(fs')
    case Missing => Failure(NoSuchEntry(source))
    case _ => Failure(NotADirectory(source))
  }

  /** The copy does not touch the template it reads. */
  lemma CopyLeavesTemplate(fs: Node, source: Path, destination: Path, s: Path)
    requires Disjoint(source, destination)
    requires StatAt(fs, destination) == Found(Dir(map[]))
    requires CopyDirectory(fs, source, destination).Success?
    ensures StatAt(CopyDirectory(fs, source, destination).value, source + s) == StatAt(fs, source + s)
  {
    assert (source + s)[..|source|] == source;
    assert Disjoint(destination, source + s);
  }

  datatype Outcome = Created | Failed(error: Error)

  /** The file tree after the command, and what the operator is told. */
  datatype Run = Run(fs: Node, outcome: Outcome)

  /**
   The work inside the progress notification of the create command: prepare
   the target, copy the template, stamp the settings. A failure while copying leaves the
   prepared target in place; nothing is rolled back.
   */
  function CreateProject(fs: Node, template: Path, destination: Path, name: string,
                         now: string, codec: Settings.JsonCodec): (r: Run)
    requires Disjoint(template, Join(destination, name))
    ensures EnsureEmptyDirectory(fs, Join(destination, name)).Failure? ==>
              r == Run(fs, Failed(EnsureEmptyDirectory(fs, Join(destination, name)).error))
    ensures r.outcome.Created? <==> EnsureEmptyDirectory(fs, Join(destination, name)).Success? && IsDirAt(fs, template)
    ensures r.outcome.Failed? && EnsureEmptyDirectory(fs, Join(destination, name)).Success? ==>
              StatAt(r.fs, Join(destination, name)) == Found(Dir(map[]))
    ensures r.outcome.Created? ==> IsDirAt(r.fs, Join(destination, name))
  {
    var target := Join(destination, name);
    match EnsureEmptyDirectory(fs, target)
    case Failure(e) => Run(fs, Failed(e))
    case Success(fs1) =>
      EnsureEmptyFrame(fs, target, template);
      match CopyDirectory(fs1, template, target)
      case Failure(e) => Run(fs1, Failed(e))
      case Success(fs2) =>
        var fs3 := Settings.StampProjectMetadata(fs2, target, name, now, codec);
        assert IsDirAt(fs2, target) by {
          assert StatAt(fs2, target + []) == StatAt(CopyNode(StatAt(fs1, template).node), []);
          assert target + [] == target;
        }
        assert IsDirAt(fs3, target) by {
          StampKeepsTargetDir(fs2, target, name, now, codec);
        }
        Run(fs3, Created)
  }

  /** Stamping rewrites one file below the target, so the target stays a directory. */
  lemma StampKeepsTargetDir(fs: Node, target: Path, name: string, now: string, codec: Settings.JsonCodec)
    requires IsDirAt(fs, target)
    ensures IsDirAt(Settings.StampProjectMetadata(fs, target, name, now, codec), target)
  {
    var fs' := Settings.StampProjectMetadata(fs, target, name, now, codec);
    var path := Settings.SettingsPath(target);
    if fs' != fs {
      var v := File(codec.render(Settings.StampDocument(Settings.ReadSettings(fs, target, codec).value, name, now).value));
      assert fs' == SetAt(fs, path, v);
      StatAtAppend(fs', target, [Settings.SettingsDir, Settings.SettingsFile]);
    }
  }

  /** Creating a project changes nothing outside the target and its ancestors. */
  lemma CreateProjectFrame(fs: Node, template: Path, destination: Path, name: string,
                           now: string, codec: Settings.JsonCodec, q: Path)
    requires Disjoint(template, Join(destination, name))
    requires Disjoint(Join(destination, name), q)
    ensures StatAt(CreateProject(fs, template, destination, name, now, codec).fs, q) == StatAt(fs, q)
  {
    var target := Join(destination, name);
    if EnsureEmptyDirectory(fs, target).Success? {
      var fs1 := EnsureEmptyDirectory(fs, target).value;
      EnsureEmptyFrame(fs, target, q);
      EnsureEmptyFrame(fs, target, template);
      if CopyDirectory(fs1, template, target).Success? {
        var fs2 := CopyDirectory(fs1, template, target).value;
        assert Settings.SettingsPath(target)[..|target|] == target;
        Settings.StampFrame(fs2, target, name, now, codec, q);
      }
    }
  }

  /**
   After a successful run, a regular file lies at a path below the target, other than the
   settings file, exactly when the template holds a file with the same bytes at the same
   path and no component of that path is skipped.
   */
  lemma CreateProjectCopiesTemplate(fs: Node, template: Path, destination: Path, name: string,
                                    now: string, codec: Settings.JsonCodec, s: Path, content: seq<Byte>)
    requires Disjoint(template, Join(destination, name))
    requires CreateProject(fs, template, destination, name, now, codec).outcome.Created?
    requires s != [Settings.SettingsDir, Settings.SettingsFile]
    ensures StatAt(CreateProject(fs, template, destination, name, now, codec).fs, Join(destination, name) + s) == Found(File(content))
        <==> Clean(s) && StatAt(fs, template + s) == Found(File(content))
  {
    var target := Join(destination, name);
    var fs1 := EnsureEmptyDirectory(fs, target).value;
    EnsureEmptyFrame(fs, target, template);
    var fs2 := CopyDirectory(fs1, template, target).value;
    var t := StatAt(fs, template).node;
    assert s == (target + s)[|target|..];
    Settings.StampPreservesOtherFiles(fs2, target, name, now, codec, target + s, content);
    CopyPreservesFiles(t, s, content);
    StatAtAppend(fs, template, s);
  }

  /** What the settings file of a new project reads as: the template's settings, stamped. */
  lemma CreateProjectStampsSettings(fs: Node, template: Path, destination: Path, name: string,
                                    now: string, codec: Settings.JsonCodec)
    requires Disjoint(template, Join(destination, name))
    requires Settings.RoundTrips(codec, Settings.Written(Settings.ReadSettings(fs, template, codec), name, now))
    requires CreateProject(fs, template, destination, name, now, codec).outcome.Created?
    ensures Settings.ReadSettings(CreateProject(fs, template, destination, name, now, codec).fs, Join(destination, name), codec)
         == Settings.StampedView(Settings.ReadSettings(fs, template, codec), name, now)
  {
    var target := Join(destination, name);
    var rel := [Settings.SettingsDir, Settings.SettingsFile];
    var fs1 := EnsureEmptyDirectory(fs, target).value;
    EnsureEmptyFrame(fs, target, template);
    var fs2 := CopyDirectory(fs1, template, target).value;
    var t := StatAt(fs, template).node;
    StatAtAppend(fs, template, rel);
    assert Clean(rel);
    assert Settings.ReadSettings(fs2, target, codec) == Settings.ReadSettings(fs, template, codec) by {
      assert StatAt(fs2, target + rel) == StatAt(CopyNode(t), rel);
      if StatAt(t, rel).Found? && StatAt(t, rel).node.File? {
        CopyPreservesFiles(t, rel, StatAt(t, rel).node.content);
      }
    }
    Settings.StampReadBack(fs2, target, name, now, codec);
  }

  /** The example template's copy keeps `src` alone. */
  lemma CopyExampleTemplate(main: seq<Byte>, config: seq<Byte>, bin: seq<Byte>)
    ensures CopyNode(Dir(map["src" := Dir(map["main.c" := File(main)]),
                             ".git" := Dir(map["config" := File(config)]),
                             "build" := Dir(map["out.bin" := File(bin)])]))
         == Dir(map["src" := Dir(map["main.c" := File(main)])])
  {
    var srcDir := Dir(map["main.c" := File(main)]);
    var m := map["src" := srcDir, ".git" := Dir(map["config" := File(config)]), "build" := Dir(map["out.bin" := File(bin)])];
    assert CopyNode(srcDir) == srcDir by {
      assert "main.c" !in SkipEntries;
      assert CopyNode(srcDir).entries.Keys == {"main.c"};
    }
    assert "src" !in SkipEntries;
    assert CopyNode(Dir(m)).entries.Keys == {"src"};
  }

  /**
   A template holding `src/main.c`, `.git/config` and `build/out.bin`, scaffolded into a new
   folder, yields a project holding `src/main.c` alone.
   */
  lemma ScaffoldExample(main: seq<Byte>, config: seq<Byte>, bin: seq<Byte>, now: string, codec: Settings.JsonCodec)
    ensures
      var tpl := Dir(map["src" := Dir(map["main.c" := File(main)]),
                         ".git" := Dir(map["config" := File(config)]),
                         "build" := Dir(map["out.bin" := File(bin)])]);
      var fs := Dir(map["ext" := tpl, "home" := Dir(map[])]);
      var r := CreateProject(fs, ["ext"], ["home"], "demo", now, codec);
      r.outcome == Created && StatAt(r.fs, ["home", "demo"]) == Found(Dir(map["src" := Dir(map["main.c" := File(main)])]))
  {
    var srcDir := Dir(map["main.c" := File(main)]);
    var tpl := Dir(map["src" := srcDir,
                       ".git" := Dir(map["config" := File(config)]),
                       "build" := Dir(map["out.bin" := File(bin)])]);
    var fs := Dir(map["ext" := tpl, "home" := Dir(map[])]);
    var target := ["home", "demo"];
    assert Join(["home"], "demo") == target;
    assert Disjoint(["ext"], target);
    assert StatAt(fs, target).Missing?;
    var fs1 := EnsureEmptyDirectory(fs, target).value;
    EnsureEmptyFrame(fs, target, ["ext"]);
    assert IsDirAt(fs1, ["ext"]);
    var fs2 := CopyDirectory(fs1, ["ext"], target).value;
    CopyExampleTemplate(main, config, bin);
    assert StatAt(fs2, target + []) == StatAt(CopyNode(tpl), []);
    assert target + [] == target;
    assert StatAt(fs2, target) == Found(Dir(map["src" := srcDir]));
    assert StatAt(fs2, target + [Settings.SettingsDir]) == StatAt(CopyNode(tpl), [Settings.SettingsDir]);
    assert Settings.ReadSettings(fs2, target, codec).None?;
  }
}

=== FILE: settings.dfy ===
/**
 The metadata stamper: rewrites the `project` record of the settings file inside a freshly
 copied project. JSON text is abstracted by a codec; the document is structured data with
 JavaScript's truthiness and strict-mode property-assignment rules.
 */
module Settings {
  import opened Wrappers
  import opened FileTree

  datatype Json =
    | JNull
    | JBool(b: bool)
    | JNumber(n: real)
    | JString(s: string)
    | JArray(items: seq<Json>)
    | JObject(fields: map<string, Json>)

  /** `JSON.parse` (after UTF-8 decoding; `None` for malformed text) and `JSON.stringify(_, null, 2)`. */
  datatype JsonCodec = JsonCodec(parse: seq<Byte> -> Option<Json>, render: Json -> seq<Byte>)

  /**
   Parsing the rendering of the written document gives it back (`None`: nothing is written).
   `JSON.stringify` and `JSON.parse` do this for the documents a settings file holds; they
   cannot for every mathematical real, so the hypothesis is stated per document.
   */
  predicate RoundTrips(codec: JsonCodec, written: Option<Json>) {
    written.Some? ==> codec.parse(codec.render(written.value)) == Some(written.value)
  }

  const SettingsDir: string := ".vscode"
  const SettingsFile: string := "vex_project_settings.json"
  const DefaultDescription: string := "VEX Competition Project"

  function SettingsPath(target: Path): (p: Path)
    ensures IsPrefix(target, p) && |p| == |target| + 2
  {
    target + [SettingsDir, SettingsFile]
  }

  /** JavaScript's `Boolean(v)` on a JSON value: all but `null`, `false`, `0` and `""`. */
  function Truthy(j: Json): (r: bool)
    ensures !r <==> j == JNull || j == JBool(false) || j == JNumber(0.0) || j == JString("")
  {
    match j
    case JNull => false
    case JBool(b) => b
    case JNumber(n) => n != 0.0
    case JString(s) => s != []
    case JArray(_) => true
    case JObject(_) => true
  }

  /** A truthy value that is not an object: assigning a property to it throws in strict mode. */
  predicate TruthyPrimitive(j: Json) {
    Truthy(j) && !j.JArray? && !j.JObject?
  }

  predicate HasTruthyField(fields: map<string, Json>, key: string) {
    key in fields && Truthy(fields[key])
  }

  /** The three assignments `stampProjectMetadata` makes to a `project` object. */
  function StampProject(p: map<string, Json>, name: string, now: string): (r: map<string, Json>)
    ensures r.Keys == p.Keys + {"name", "description", "creationDate"}
    ensures r["name"] == JString(name)
    ensures r["creationDate"] == JString(now)
    ensures HasTruthyField(p, "description") ==> r["description"] == p["description"]
    ensures !HasTruthyField(p, "description") ==> r["description"] == JString(DefaultDescription)
    ensures forall k :: k in p && k != "name" && k != "description" && k != "creationDate" ==> r[k] == p[k]
  {
    var description := if HasTruthyField(p, "description") then p["description"] else JString(DefaultDescription);
    p["name" := JString(name)]["description" := description]["creationDate" := JString(now)]
  }

  /**
   The document part of `stampProjectMetadata`: the document to write back, or `None` when
   the statements before the write throw (`null.project`, or a field assigned to a
   primitive `project` in strict mode) and nothing is written.
   */
  function StampDocument(data: Json, name: string, now: string): (r: Option<Json>)
    ensures r.None? <==> data.JNull? || (data.JObject? && "project" in data.fields && TruthyPrimitive(data.fields["project"]))
    ensures data.JObject? && "project" in data.fields && data.fields["project"].JObject? ==>
              && r.Some? && r.value.JObject?
              && r.value.fields.Keys == data.fields.Keys
              && r.value.fields["project"] == JObject(StampProject(data.fields["project"].fields, name, now))
              && (forall k :: k in data.fields && k != "project" ==> r.value.fields[k] == data.fields[k])
    ensures !(data.JObject? && HasTruthyField(data.fields, "project")) && !data.JNull? ==> r == Some(data)
    ensures data.JObject? && "project" in data.fields && data.fields["project"].JArray? ==> r == Some(data)
  {
    match data
    case JNull => None
    case JObject(f) =>
      if HasTruthyField(f, "project") then
        match f["project"]
        case JObject(p) => Some(JObject(f["project" := JObject(StampProject(p, name, now))]))
        // fields set on an array are not own JSON properties: `JSON.stringify` drops them
        case JArray(_) => Some(data)
        case _ => None
      else Some(data)
    case _ => Some(data)
  }

  /** Stamping a stamped document again with the same name and time changes nothing. */
  lemma StampDocumentIdempotent(data: Json, name: string, now: string)
    requires StampDocument(data, name, now).Some?
    ensures StampDocument(StampDocument(data, name, now).value, name, now) == StampDocument(data, name, now)
  {
    var d' := StampDocument(data, name, now).value;
    if data.JObject? && "project" in data.fields && data.fields["project"].JObject? {
      var p := data.fields["project"].fields;
      var p' := StampProject(p, name, now);
      assert StampProject(p', name, now) == p';
      assert d'.fields["project" := JObject(p')] == d'.fields;
    }
  }

  /**
   `readFile` and `JSON.parse` of the settings file: `None` when it is missing, not a regular
   file, or malformed. A readable settings file lies inside a `.vscode` folder of the target.
   */
  function ReadSettings(fs: Node, target: Path, codec: JsonCodec): (r: Option<Json>)
    ensures !(StatAt(fs, SettingsPath(target)).Found? && StatAt(fs, SettingsPath(target)).node.File?) ==> r.None?
    ensures r.Some? ==> codec.parse(StatAt(fs, SettingsPath(target)).node.content) == r
    ensures forall raw :: StatAt(fs, SettingsPath(target)) == Found(File(raw)) ==> r == codec.parse(raw)
    ensures r.Some? ==> IsDirAt(fs, target) && IsDirAt(fs, target + [SettingsDir])
  {
    match StatAt(fs, SettingsPath(target))
    case Found(File(raw)) =>
      assert (target + [SettingsDir]) == SettingsPath(target)[..|target| + 1];
      AncestorIsDir(fs, target, SettingsPath(target));
      AncestorIsDir(fs, target + [SettingsDir], SettingsPath(target));
      codec.parse(raw)
    case _ => None
  }

  /**
   `stampProjectMetadata(targetPath, projectName)` with the clock reading `now` standing for
   `new Date().toLocaleString()`. Every failure is swallowed: the tree is then unchanged.
   */
  function StampProjectMetadata(fs: Node, target: Path, name: string, now: string, codec: JsonCodec): (r: Node)
    ensures ReadSettings(fs, target, codec).None? ==> r == fs
    ensures ReadSettings(fs, target, codec).Some? && StampDocument(ReadSettings(fs, target, codec).value, name, now).None? ==> r == fs
    ensures ReadSettings(fs, target, codec).Some? && StampDocument(ReadSettings(fs, target, codec).value, name, now).Some? ==>
              StatAt(r, SettingsPath(target)) == Found(File(codec.render(StampDocument(ReadSettings(fs, target, codec).value, name, now).value)))
  {
    match ReadSettings(fs, target, codec)
    case None => fs
    case Some(doc) =>
      match StampDocument(doc, name, now)
      case None => fs
      case Some(stamped) => SetAt(fs, SettingsPath(target), File(codec.render(stamped)))
  }

  /** The stamper writes nothing but the settings file. */
  lemma StampFrame(fs: Node, target: Path, name: string, now: string, codec: JsonCodec, q: Path)
    requires Disjoint(q, SettingsPath(target))
    ensures StatAt(StampProjectMetadata(fs, target, name, now, codec), q) == StatAt(fs, q)
  {
    var path := SettingsPath(target);
    match StatAt(fs, path) {
      case Found(File(raw)) =>
        var doc := codec.parse(raw);
        if doc.Some? && StampDocument(doc.value, name, now).Some? {
          SetAtFrame(fs, path, File(codec.render(StampDocument(doc.value, name, now).value)), q);
        }
      case _ =>
    }
  }

  /**
   When the written document survives the codec, reading the settings back after stamping
   yields the stamped document; when the stamper gave up, the document read is the one that
   was there.
   */
  lemma StampReadBack(fs: Node, target: Path, name: string, now: string, codec: JsonCodec)
    requires RoundTrips(codec, Written(ReadSettings(fs, target, codec), name, now))
    ensures ReadSettings(StampProjectMetadata(fs, target, name, now, codec), target, codec) ==
              StampedView(ReadSettings(fs, target, codec), name, now)
  {
  }

  /** The settings document a reader sees once the stamper has run on `read`. */
  function StampedView(read: Option<Json>, name: string, now: string): Option<Json> {
    match read
    case None => None
    case Some(d) => (match StampDocument(d, name, now) case Some(d') => Some(d') case None => Some(d))
  }

  /** The document the stamper writes for the settings `read`, if it writes one. */
  function Written(read: Option<Json>, name: string, now: string): Option<Json> {
    match read
    case None => None
    case Some(d) => StampDocument(d, name, now)
  }

  /** The stamper changes no regular file other than the settings file. */
  lemma StampPreservesOtherFiles(fs: Node, target: Path, name: string, now: string, codec: JsonCodec,
                                 q: Path, content: seq<Byte>)
    requires q != SettingsPath(target)
    ensures StatAt(StampProjectMetadata(fs, target, name, now, codec), q) == Found(File(content))
        <==> StatAt(fs, q) == Found(File(content))
  {
    var fs' := StampProjectMetadata(fs, target, name, now, codec);
    if fs' != fs {
      var v := File(codec.render(StampDocument(ReadSettings(fs, target, codec).value, name, now).value));
      SetAtOtherFiles(fs, SettingsPath(target), v, q, content);
    }
  }

  /** The stamped form of a settings file holding only an old project name. */
  lemma StampExample(now: string)
    ensures StampDocument(JObject(map["project" := JObject(map["name" := JString("old")])]), "demo", now)
         == Some(JObject(map["project" := JObject(map["name" := JString("demo"),
                                                      "description" := JString(DefaultDescription),
                                                      "creationDate" := JString(now)])]))
  {
    var p := map["name" := JString("old")];
    assert !HasTruthyField(p, "description");
    assert StampProject(p, "demo", now) == map["name" := JString("demo"),
                                                "description" := JString(DefaultDescription),
                                                "creationDate" := JString(now)];
    var f := map["project" := JObject(p)];
    assert HasTruthyField(f, "project");
    assert f["project" := JObject(StampProject(p, "demo", now))] == map["project" := JObject(StampProject(p, "demo", now))];
  }

  /**
   When the written document survives the codec, stamping twice with the same name and time
   is stamping once.
   */
  lemma StampIdempotent(fs: Node, target: Path, name: string, now: string, codec: JsonCodec)
    requires RoundTrips(codec, Written(ReadSettings(fs, target, codec), name, now))
    ensures StampProjectMetadata(StampProjectMetadata(fs, target, name, now, codec), target, name, now, codec)
         == StampProjectMetadata(fs, target, name, now, codec)
  {
    var path := SettingsPath(target);
    var fs' := StampProjectMetadata(fs, target, name, now, codec);
    match ReadSettings(fs, target, codec)
    case None =>
    case Some(d) =>
      match StampDocument(d, name, now)
      case None =>
      case Some(d') =>
        StampDocumentIdempotent(d, name, now);
        SetAtSame(fs', path, File(codec.render(d')));
  }
}

=== FILE: wrappers.dfy ===
/** Failure-carrying datatypes shared by the scaffolding modules. */
module Wrappers {

  /** A value that may be absent: `undefined` on the TypeScript side. */
  datatype Option<+T> = None | Some(value: T)

  /** The outcome of an operation that either produces a value or throws an error. */
  datatype Result<+R, +E> = Success(value: R) | Failure(error: E)
}
